=== FILE: README.md ===
# Reservation status crawler — Dafny model

The service answers `GET /api/reservations?type=ai|earthquake|drone` with
today's sessions of one activity at a science centre. It reads the activity's
booking calendar page, keeps the calendar cells (`<td>`) whose day number is
today's day of the month (Seoul time), and turns every session link in those
cells into a record `{time, status, available}`. A link text looks like
`"10:10 ~ 10:40/초등 (신청마감)"` or `"10:10 ~ 10:40/초등 (3/6)"`. Before it
fetches anything, the handler rejects unknown types (except the
`Object.prototype` names; see Findings). It answers Mondays
(closed) and Sundays for the earthquake VR (not offered) with an empty list.

This project models that decision logic with immutable datatypes and pure
functions, and proves its properties:

- `Optional` (`optional.dfy`) holds the absent value shared by the other
  modules: JavaScript's `null` and `NaN`.
- `JsText` (`js_text.dfy`) covers the JavaScript string primitives the
  handler relies on. `trim` uses the exact ECMAScript white-space and
  line-terminator set. `\d` is the ASCII digits, `Number` is applied to a
  digit string, and `parseInt(text, 10)` handles white space, sign, a digit
  prefix and NaN.
- `SlotLabel` (`slot_label.dfy`) is the per-link parser. It extracts the time
  prefix matched by `^\d{1,2}:\d{2}`. It captures the status text the way
  `\((.*?)\)$` does: from the leftmost `(` that can reach a final `)` without
  crossing a line break. It then classifies that text as the closed marker
  `신청마감`, a `used/total` fraction (status `예약가능`,
  `available = total − used`, not clamped) or anything else (status `""`,
  `available = null`).
- `Calendar` (`calendar.dfy`) covers today-cell selection and the nested
  `each` loops that push one record per link.
- `Reservations` (`reservations.dfy`) covers type validation, the weekday
  rule and the whole handler, with the page fetch as a parameter.

In each record, `available` is `total − used`, unclamped, for a bookable
record; 0 for the closed marker; `null` otherwise.

## Model

| member | source | states |
|---|---|---|
| JsText.Trim | index.js:68 | `trim()` leaves no ECMAScript white space or line terminator at either end and never lengthens the text |
| JsText.TrimCutsOnlyWhiteSpace | index.js:68 | what `trim()` removes on each side is white space only; the kept text is an unchanged slice of the input |
| JsText.TrimOfPadded | index.js:68 | padding a trimmed text with white space on both sides and trimming returns exactly that text, so the trimmed core is unique |
| JsText.TrimIdempotent | index.js:68 | trimming an already trimmed text changes nothing |
| JsText.DigitsValue | index.js:79 | `Number` on a digit string; `DecimalText` is its round-trip partner (its contract says `DigitsValue` reads it back) |
| JsText.DecimalText | index.js:79 | every natural number has a non-empty digit spelling that `Number` reads back as the same number |
| JsText.ParseInt | index.js:61 | `parseInt(text, 10)` is NaN exactly when, after leading white space, the text does not start with an optional sign followed by a digit |
| JsText.ParseIntSkipsPadding | index.js:61 | white space before the number does not change what `parseInt` reads |
| JsText.ParseIntOfSignedDigits | index.js:61 | `parseInt` reads back any digit spelling of a number, leading zeros included, after any white space and an optional sign and whatever non-digit text follows it ("15일" gives 15), negated for `-` |
| SlotLabel.TimePrefix | index.js:69 | the time is the label's unique `H:MM`/`HH:MM` prefix when one exists, and "" exactly when no 4- or 5-character prefix is a clock |
| SlotLabel.LeftmostMatch | index.js:71 | the regex scan returns the first start index where `\((.*?)\)$` matches, or reports that no index matches |
| SlotLabel.StatusText | index.js:71 | the captured status text runs from just after the leftmost matching `(` to just before the final `)`; it is "" when nothing matches |
| SlotLabel.StatusTextOfFinalGroup | index.js:71 | for a label whose only `(` opens a final group without line breaks, the captured text is exactly that group's content |
| SlotLabel.StatusTextSpansFromFirstParen | index.js:71 | with two groups at the end, the capture spans both: "a (b) (c)" yields "b) (c" |
| SlotLabel.StatusTextSkipsBrokenGroup | index.js:71 | a line break after the first `(` moves the match to a later `(`: "(x\n) (3/6)" yields "3/6" |
| SlotLabel.SplitFraction | index.js:78-79 | numbers are read exactly when the text is digits, `/`, digits, and then they are the values of the two digit runs |
| SlotLabel.Classify | index.js:72-82 | closed status iff the text is exactly `신청마감` (seats 0); bookable status iff it is a digit fraction (seats `total − used`); otherwise blank status with null seats |
| SlotLabel.ClassifyFraction | index.js:78-81 | any printed `used/total` classifies as bookable with `total − used` seats |
| SlotLabel.ClassifyDigitFraction | index.js:78-81 | any two non-empty digit runs around a `/` classify as bookable with the second value minus the first |
| SlotLabel.OverbookedSlotIsStillBookable | index.js:78-81 | there is no clamp and no full status: "6/6" gives bookable with 0 and "7/6" gives bookable with −1 |
| SlotLabel.TimeOfClockLabel | index.js:69 | a label that starts with a clock gets that clock as its time, whatever follows |
| SlotLabel.TimeIgnoresStatusGroup | index.js:69-71 | the time depends only on the text before the status group |
| SlotLabel.ParseLabel | index.js:69-84 | (`IsTimeOf`, `IsStatusOf`) the record's time is the label's clock prefix when it starts with one, and otherwise empty; its status text is `신청마감` iff the captured text is exactly that marker (seats 0), `예약가능` iff the captured text is a digit fraction (seats `total − used` of that fraction), and "" iff the seat count is null. `ParseLabelParts` restates the record as the `TimePrefix`, `StatusText` and `Classify` results, whose contracts cover every label, including "초등(저) (3/6)" (capture "저) (3/6", blank) and labels with no `(` |
| SlotLabel.ParseGroupedLabel | index.js:68-84 | a label "prefix (inner)" gives a record whose time comes from the prefix and whose status and seats come from `inner` |
| SlotLabel.ParseClosedLabel | index.js:75-77 | a label ending in "(신청마감)" gives the closed status with 0 seats |
| SlotLabel.ParseFractionLabel | index.js:78-84 | a label ending in "(used/total)" gives the bookable status with `total − used` seats |
| SlotLabel.SiteLabelRoundTrip | index.js:68-84 | a clock, free text and "(used/total)" parse back to that clock, the bookable status and `total − used` |
| SlotLabel.UntimedLabelIsKept | index.js:69-84 | a label without a clock is not dropped: "초등 (3/6)" gives time "", bookable, 3 |
| SlotLabel.LabelWithoutFinalGroup | index.js:71-84 | a label that does not end in `)` gets the blank status and null seats |
| SlotLabel.ParseLink | index.js:68-84 | the link text is trimmed before parsing: the time is empty or a clock prefix of the trimmed text, blank status goes with null seats and closed with 0; `ParseLinkIgnoresPadding` shows the surrounding white space never matters |
| SlotLabel.ParseLinkIgnoresPadding | index.js:68 | white space around a link text does not change its record, and parsing an already trimmed text gives the same record |
| Calendar.ParseAll | index.js:65-85 | exactly one record per link, in order, each computed from that link's text alone |
| Calendar.PushParsed | index.js:65-85 | the inner loop appends one record per link of the cell, in order, and leaves what was already collected unchanged |
| Calendar.Collect | index.js:59-86 | the outer loop returns exactly the records of the links of the kept cells, in document order |
| Calendar.CollectTodaySlots | index.js:59-86 | the handler's loop returns one record per link of today's cells, each the parse of that link, cells first and links within a cell next |
| Calendar.WalkIsParseOfKeptLinks | index.js:59-86 | walking the cells equals parsing the flattened link texts of the kept cells |
| Calendar.WalkAppend | index.js:59-86 | the walk is compositional over consecutive runs of cells |
| Calendar.IsToday | index.js:60-62 | a cell is today's only if its trimmed day text starts with an optional sign and a digit; `DayTextReadsAsDate` gives the positive cases |
| Calendar.TodaySlots | index.js:59-86 | the response data have one record per link of today's cells, each the parse of that link's text, in document order, so replaying the same texts gives the same records |
| Calendar.TodaySlotsAppend | index.js:59-86 | the records of two runs of cells are the records of each run, concatenated in order |
| Calendar.OtherDaysContributeNothing | index.js:60-62 | a cell whose day number is not today's, or is absent, contributes no record wherever it stands |
| Calendar.TodayCellContributesEveryLink | index.js:62-85 | a cell for today contributes one record per link, in place, between the records of the cells before and after it |
| Calendar.DayTextReadsAsDate | index.js:60-62 | "15" or "15일" marks the 15th; a cell whose day text has no leading number ("", "휴관") is never today's |
| Reservations.Decide | index.js:27-41 | an unknown or missing type is rejected on every day; Monday closes every valid type; Sunday closes only `earthquake`; every other case crawls the type's own URL |
| Reservations.Handle | index.js:26-93 | 400 `invalid type` iff the type is unknown; an empty 200 answer with the closed-day message on Monday and on Sunday for `earthquake`; otherwise 200 `정상 조회` with today's records, or 500 `crawl fail` with the error detail when the fetch fails |
| Reservations.NoFetchUnlessCrawling | index.js:27-44 | a rejected type or a closed day gets the same answer whatever the fetch would return, so no fetch is needed |
| Reservations.FetchesOnlyTheTypesPage | index.js:28-44 | the answer depends on the fetch only through the requested type's own calendar page |
| Reservations.LookupAsWritten | index.js:28-29 | `reservationMap[type]` is truthy iff the type is an own key or an `Object.prototype` name; an own key gives its calendar URL and an inherited name gives that built-in; `DecideAsWritten` and `InheritedNameEscapesValidation` show where this leads |
| Reservations.DecideAsWritten | index.js:27-41 | the gate as written rejects a type iff it is missing or is neither an own key nor an `Object.prototype` name; every type that passes, inherited names included, is closed exactly on Monday and on Sunday for `earthquake`, and is otherwise crawled: an own URL only for a real type, a built-in only for the inherited name asked for |
| Reservations.InheritedNameEscapesValidation | index.js:28-29 | as written, `type=toString` passes validation: on Monday it gets the closed-day answer and on other days it goes on to crawl, while the corrected check rejects it |
| Reservations.AsWrittenAgreesOffInheritedNames | index.js:14-41 | for every type that is not an `Object.prototype` name, the code as written decides exactly as the corrected check does |

## Findings

| source | as written | input that shows it | evidently intended | confidence | as-written member | corrected member |
|---|---|---|---|---|---|---|
| index.js:28-29 | `reservationMap[type]` followed by `if (!url)` also finds the properties every object inherits from `Object.prototype` (`toString`, `constructor`, `__proto__`, ...). These are truthy, so the type passes validation | `?type=toString` on a Monday gets `200 {message: '월요일 휴관', data: []}`; on any other day the handler passes a function to the fetch, which fails with 500 `crawl fail` | `400 {error: 'invalid type'}` for every type other than `ai`, `earthquake`, `drone` | medium (assumes the query string reaches the handler as the plain string "toString", as Express's parsers give it); not executed | Reservations.InheritedNameEscapesValidation | Reservations.Decide |

`Reservations.Handle` uses the corrected check `Decide`. `DecideAsWritten`
keeps the lookup as the code writes it.

## Left out

- HTTP plumbing: Express routing, CORS, the health-check route and
  `app.listen` (index.js:4-11, 95-102). They hold no decision logic.
- The fetch itself: axios, its 30-second timeout, headers and redirect limit
  (index.js:44-52). `Handle` takes the fetch outcome as a function from URL to
  "page cells or error detail". The 500 path is modelled through that
  outcome. The error detail is an opaque string.
- HTML parsing by cheerio: `$('td')`, `span.day`, `a.word-wrap` and `.text()`.
  A cell is reduced to the text of its first `span.day` ("" when there is
  none) and the texts of its `a.word-wrap` links, in document order. Cells
  nested inside other cells are not modelled.
- The clock: the conversion to Seoul time through `toLocaleString`
  (index.js:32-36). The weekday (0..6) and the day of the month (1..31) are
  inputs.
- The logging in the error path (index.js:90), which has no effect on the
  answer.
- JavaScript number precision: `Number` and `parseInt` are modelled on
  unbounded integers. Digit strings beyond 2^53 would round in the source.
  Past about 309 digits `Number` gives `Infinity`, so `total − used` becomes
  `Infinity` or `NaN`, which `res.json` writes as `null` under the status
  `예약가능`; the model gives the exact difference there.
- A `type` parameter given several times or in bracket form
  (`?type[]=ai`), which Express turns into an array or object. `type` is
  modelled as absent or one string.
- What the handler does after the as-written lookup returns an inherited
  built-in on a crawl day: axios with a function instead of a URL. The model
  stops at the decision `Crawl(Builtin(name))`.
- Strings are sequences of Unicode code points, not UTF-16 code units. This
  does not change any result here. The patterns only test ASCII characters
  and line terminators, and `.` captures a surrogate pair either way.

=== FILE: calendar.dfy ===
/**
 The walk over the calendar's cells (index.js:59-86). A `<td>` is reduced to
 the text of its first `span.day` ("" when it has none) and the texts of its
 `a.word-wrap` links, in document order. Only cells whose day text reads, by
 `parseInt(text, 10)`, as today's day of the month contribute; each of their
 links contributes exactly one record.
 */
module Calendar {
  import opened Optional
  import opened JsText
  import opened SlotLabel

  datatype Cell = Cell(dayText: string, links: seq<string>)

  /** `parseInt(dateText, 10) === todayDate` on the trimmed day text. NaN
      equals nothing, so a cell without a day number is never today's. */
  predicate IsToday(cell: Cell, todayDate: int)
    ensures IsToday(cell, todayDate) ==> StartsWithInteger(Trim(cell.dayText))
  {
    TrimStartOfTrimmed(Trim(cell.dayText));
    ParseInt(Trim(cell.dayText)) == Some(todayDate)
  }

  /** The cell test of index.js:60-62 for one day of the month. */
  function TodayTest(todayDate: int): Cell -> bool {
    cell => IsToday(cell, todayDate)
  }

  /** One record per link text, in order, each from its own text alone. */
  function ParseAll(texts: seq<string>, parse: string -> Slot): (slots: seq<Slot>)
    ensures |slots| == |texts|
    ensures forall i :: 0 <= i < |texts| ==> slots[i] == parse(texts[i])
  {
    if texts == [] then [] else [parse(texts[0])] + ParseAll(texts[1..], parse)
  }

  /** The shape of the handler's walk: for every kept cell, in document
      order, the records of its links, in order. It is stated for any cell
      test and any parser so that its laws are proved once. */
  function Walk(cells: seq<Cell>, keep: Cell -> bool, parse: string -> Slot): seq<Slot> {
    if cells == [] then []
    else (if keep(cells[0]) then ParseAll(cells[0].links, parse) else [])
         + Walk(cells[1..], keep, parse)
  }

  /** The link texts of the kept cells, flattened in document order. */
  function KeptLinks(cells: seq<Cell>, keep: Cell -> bool): seq<string> {
    if cells == [] then []
    else (if keep(cells[0]) then cells[0].links else []) + KeptLinks(cells[1..], keep)
  }

  /** The `data` array of a page: the records of today's cells. */
  function TodaySlots(cells: seq<Cell>, todayDate: int): (slots: seq<Slot>)
    ensures |slots| == |KeptLinks(cells, TodayTest(todayDate))|
    ensures forall i :: 0 <= i < |slots| ==> slots[i] == ParseLink(KeptLinks(cells, TodayTest(todayDate))[i])
  {
    WalkIsParseOfKeptLinks(cells, TodayTest(todayDate), ParseLink);
    Walk(cells, TodayTest(todayDate), ParseLink)
  }

  /** `$('td').each(...)` with `result.push(...)`: the handler's loop, for
      a given cell test and link parser. It returns one record per link of
      the kept cells, each the parse of that link's text, in document order. */
  method Collect(cells: seq<Cell>, keep: Cell -> bool, parse: string -> Slot) returns (result: seq<Slot>)
    ensures |result| == |KeptLinks(cells, keep)|
    ensures forall i :: 0 <= i < |result| ==> result[i] == parse(KeptLinks(cells, keep)[i])
    ensures result == Walk(cells, keep, parse)
  {
    result := [];
    var i := 0;
    while i < |cells|
      invariant 0 <= i <= |cells|
      invariant result == Walk(cells[..i], keep, parse)
    {
      var cell := cells[i];
      if keep(cell) {
        result := PushParsed(result, cell.links, parse);
      }
      WalkStep(cells, i, keep, parse);
      i := i + 1;
    }
    assert cells[..i] == cells;
    WalkIsParseOfKeptLinks(cells, keep, parse);
  }

  /** The inner `.each` over one cell's links: each link's record is pushed
      onto `acc`, in order. */
  method PushParsed(acc: seq<Slot>, links: seq<string>, parse: string -> Slot) returns (result: seq<Slot>)
    ensures |result| == |acc| + |links|
    ensures result[..|acc|] == acc
    ensures forall j :: 0 <= j < |links| ==> result[|acc| + j] == parse(links[j])
  {
    result := acc;
    var j := 0;
    while j < |links|
      invariant 0 <= j <= |links|
      invariant |result| == |acc| + j
      invariant result[..|acc|] == acc
      invariant forall k :: 0 <= k < j ==> result[|acc| + k] == parse(links[k])
    {
      result := result + [parse(links[j])];
      j := j + 1;
    }
  }

  /** The handler's loop with its own cell test and parser: the records of
      the links of today's cells, one per link, in document order. */
  method CollectTodaySlots(cells: seq<Cell>, todayDate: int) returns (result: seq<Slot>)
    ensures |result| == |KeptLinks(cells, TodayTest(todayDate))|
    ensures forall i :: 0 <= i < |result| ==> result[i] == ParseLink(KeptLinks(cells, TodayTest(todayDate))[i])
    ensures result == TodaySlots(cells, todayDate)
  {
    result := Collect(cells, TodayTest(todayDate), ParseLink);
  }

  // ------------------------------------------------------------ lemmas

  /** Parsing distributes over concatenation of link lists. */
  lemma {:induction false} ParseAllAppend(a: seq<string>, b: seq<string>, parse: string -> Slot)
    ensures ParseAll(a + b, parse) == ParseAll(a, parse) + ParseAll(b, parse)
  {
    var l, r := ParseAll(a + b, parse), ParseAll(a, parse) + ParseAll(b, parse);
    assert |l| == |r|;
    forall i | 0 <= i < |l|
      ensures l[i] == r[i]
    {
      if i < |a| { assert (a + b)[i] == a[i]; } else { assert (a + b)[i] == b[i - |a|]; }
    }
  }

  /** One more cell of the walk. */
  lemma {:induction false} WalkStep(cells: seq<Cell>, i: nat, keep: Cell -> bool, parse: string -> Slot)
    requires i < |cells|
    ensures Walk(cells[..i + 1], keep, parse)
         == Walk(cells[..i], keep, parse) + (if keep(cells[i]) then ParseAll(cells[i].links, parse) else [])
  {
    assert cells[..i + 1] == cells[..i] + [cells[i]];
    WalkAppend(cells[..i], [cells[i]], keep, parse);
    WalkOfOne(cells[i], keep, parse);
  }

  lemma {:induction false} WalkIsParseOfKeptLinks(cells: seq<Cell>, keep: Cell -> bool, parse: string -> Slot)
    ensures Walk(cells, keep, parse) == ParseAll(KeptLinks(cells, keep), parse)
    decreases |cells|
  {
    if cells != [] {
      WalkIsParseOfKeptLinks(cells[1..], keep, parse);
      var head := if keep(cells[0]) then cells[0].links else [];
      ParseAllAppend(head, KeptLinks(cells[1..], keep), parse);
    }
  }

  lemma {:induction false} WalkAppend(a: seq<Cell>, b: seq<Cell>, keep: Cell -> bool, parse: string -> Slot)
    ensures Walk(a + b, keep, parse) == Walk(a, keep, parse) + Walk(b, keep, parse)
    decreases |a|
  {
    if a == [] {
      assert a + b == b;
    } else {
      assert (a + b)[0] == a[0];
      assert (a + b)[1..] == a[1..] + b;
      WalkAppend(a[1..], b, keep, parse);
    }
  }

  lemma {:induction false} WalkOfOne(cell: Cell, keep: Cell -> bool, parse: string -> Slot)
    ensures Walk([cell], keep, parse) == if keep(cell) then ParseAll(cell.links, parse) else []
  {
    assert [cell][1..] == [];
  }

  /** The walk over the page is compositional: the records of two runs of
      cells are the records of each run, in order. */
  lemma TodaySlotsAppend(a: seq<Cell>, b: seq<Cell>, todayDate: int)
    ensures TodaySlots(a + b, todayDate) == TodaySlots(a, todayDate) + TodaySlots(b, todayDate)
  {
    WalkAppend(a, b, TodayTest(todayDate), ParseLink);
  }

  /** A cell that is not today's contributes nothing, wherever it stands. */
  lemma OtherDaysContributeNothing(before: seq<Cell>, cell: Cell, after: seq<Cell>, todayDate: int)
    requires !IsToday(cell, todayDate)
    ensures TodaySlots(before + [cell] + after, todayDate) == TodaySlots(before + after, todayDate)
  {
    var keep := TodayTest(todayDate);
    WalkAppend(before + [cell], after, keep, ParseLink);
    WalkAppend(before, [cell], keep, ParseLink);
    WalkAppend(before, after, keep, ParseLink);
    WalkOfOne(cell, keep, ParseLink);
  }

  /** A today cell contributes one record per link, parsed from that link. */
  lemma TodayCellContributesEveryLink(before: seq<Cell>, cell: Cell, after: seq<Cell>, todayDate: int)
    requires IsToday(cell, todayDate)
    ensures TodaySlots(before + [cell] + after, todayDate)
         == TodaySlots(before, todayDate) + ParseAll(cell.links, ParseLink) + TodaySlots(after, todayDate)
  {
    var keep := TodayTest(todayDate);
    WalkAppend(before + [cell], after, keep, ParseLink);
    WalkAppend(before, [cell], keep, ParseLink);
    WalkOfOne(cell, keep, ParseLink);
  }

  lemma {:induction false} DecimalDayTextIsTrimmed(day: nat, suffix: string)
    requires suffix == [] || (!IsDigit(suffix[0]) && !IsWhiteSpace(suffix[|suffix| - 1]))
    ensures Trim(DecimalText(day) + suffix) == DecimalText(day) + suffix
  {
    DigitTextIsTrimmed(DecimalText(day), suffix);
  }

  lemma {:induction false} DigitTextIsTrimmed(d: string, suffix: string)
    requires d != [] && AllDigits(d)
    requires suffix == [] || !IsWhiteSpace(suffix[|suffix| - 1])
    ensures Trim(d + suffix) == d + suffix
  {
    var text := d + suffix;
    assert IsTrimmed(text) by {
      assert text[0] == d[0];
      if suffix == [] {
        assert text[|text| - 1] == d[|d| - 1];
      } else {
        assert text[|text| - 1] == suffix[|suffix| - 1];
      }
    }
    TrimOfTrimmed(text);
  }

  lemma {:induction false} DecimalDayTextReads(day: nat, suffix: string)
    requires suffix == [] || !IsDigit(suffix[0])
    ensures ParseInt(DecimalText(day) + suffix) == Some(day)
  {
    ParseIntOfDigits(DecimalText(day), suffix);
  }

  /** The day text is read like `parseInt`: "15" and "15일" both mark the
      15th, and a cell without a day number ("", "휴관", ...) is nobody's
      today. */
  lemma {:induction false} DayTextReadsAsDate(day: nat, suffix: string, links: seq<string>)
    requires suffix == [] || (!IsDigit(suffix[0]) && !IsWhiteSpace(suffix[|suffix| - 1]))
    ensures IsToday(Cell(DecimalText(day) + suffix, links), day)
    ensures forall t :: !StartsWithInteger(Trim(t)) ==> !IsToday(Cell(t, links), day)
  {
    var text := DecimalText(day) + suffix;
    DecimalDayTextIsTrimmed(day, suffix);
    DecimalDayTextReads(day, suffix);
    assert Trim(text) == text;
    assert ParseInt(Trim(text)) == Some(day);
  }
}

=== FILE: js_text.dfy ===
/**
 The JavaScript string primitives the reservation handler leans on:
 `String.prototype.trim`, the ASCII digits that the regular-expression class
 `\d` accepts, `Number` applied to a digit string, and `parseInt(text, 10)`.
 Numbers are unbounded integers here; JavaScript's double precision on very
 long digit strings is not modelled.
 */
module JsText {
  import opened Optional

  /** LineTerminator code points of ECMA-262 (section 12.3). */
  predicate IsLineTerminator(c: char) {
    c == '\n' || c == '\r' || c == '\U{2028}' || c == '\U{2029}'
  }

  /** WhiteSpace and LineTerminator code points of ECMA-262 (sections 12.2 and
      12.3): the characters `trim` removes and `parseInt` skips. The space
      separators among them are U+0020, U+00A0, U+1680, U+2000..U+200A,
      U+202F, U+205F and U+3000. */
  predicate IsWhiteSpace(c: char) {
    || c == '\t' || c == '\U{000B}' || c == '\U{000C}' || c == '\U{FEFF}'
    || c == ' ' || c == '\U{00A0}' || c == '\U{1680}'
    || ('\U{2000}' <= c <= '\U{200A}')
    || c == '\U{202F}' || c == '\U{205F}' || c == '\U{3000}'
    || IsLineTerminator(c)
  }

  predicate AllWhiteSpace(s: string) {
    forall i :: 0 <= i < |s| ==> IsWhiteSpace(s[i])
  }

  /** A string `trim` leaves alone: no white space at either end. */
  predicate IsTrimmed(s: string) {
    s == [] || (!IsWhiteSpace(s[0]) && !IsWhiteSpace(s[|s| - 1]))
  }

  // ------------------------------------------------------------- trim

  /** How many white-space characters open `s`. */
  function LeadingWhiteSpace(s: string): (n: nat)
    ensures n <= |s|
    ensures forall i :: 0 <= i < n ==> IsWhiteSpace(s[i])
    ensures n < |s| ==> !IsWhiteSpace(s[n])
  {
    if s != [] && IsWhiteSpace(s[0]) then 1 + LeadingWhiteSpace(s[1..]) else 0
  }

  /** How many white-space characters close `s`. */
  function TrailingWhiteSpace(s: string): (n: nat)
    ensures n <= |s|
    ensures forall i :: |s| - n <= i < |s| ==> IsWhiteSpace(s[i])
    ensures n < |s| ==> !IsWhiteSpace(s[|s| - n - 1])
  {
    if s != [] && IsWhiteSpace(s[|s| - 1]) then 1 + TrailingWhiteSpace(s[..|s| - 1]) else 0
  }

  /** The count of leading white space is the only count that stops at the
      first non-white-space character. */
  lemma {:induction false} LeadingWhiteSpaceUnique(s: string, n: nat)
    requires n <= |s|
    requires forall i :: 0 <= i < n ==> IsWhiteSpace(s[i])
    requires n < |s| ==> !IsWhiteSpace(s[n])
    ensures LeadingWhiteSpace(s) == n
  {
  }

  lemma {:induction false} TrailingWhiteSpaceUnique(s: string, n: nat)
    requires n <= |s|
    requires forall i :: |s| - n <= i < |s| ==> IsWhiteSpace(s[i])
    requires n < |s| ==> !IsWhiteSpace(s[|s| - n - 1])
    ensures TrailingWhiteSpace(s) == n
  {
  }

  /** `s` with its leading white space removed. */
  function TrimStart(s: string): (r: string)
    ensures r == [] || !IsWhiteSpace(r[0])
  {
    s[LeadingWhiteSpace(s)..]
  }

  /** A text without leading white space has nothing for `TrimStart` to cut. */
  lemma {:induction false} TrimStartOfTrimmed(t: string)
    requires IsTrimmed(t)
    ensures TrimStart(t) == t
  {
    LeadingWhiteSpaceUnique(t, 0);
    assert t[0..] == t;
  }

  /** `String.prototype.trim`: white space removed from both ends. */
  function Trim(s: string): (r: string)
    ensures IsTrimmed(r)
    ensures |r| <= |s|
  {
    var lead := LeadingWhiteSpace(s);
    var trail := TrailingWhiteSpace(s[lead..]);
    s[lead..|s| - trail]
  }

  /** What `trim` cuts off on either side is white space, and what it keeps
      is the slice of `s` in between, unchanged. */
  lemma {:induction false} TrimCutsOnlyWhiteSpace(s: string)
    ensures LeadingWhiteSpace(s) + |Trim(s)| <= |s|
    ensures s == s[..LeadingWhiteSpace(s)] + Trim(s) + s[LeadingWhiteSpace(s) + |Trim(s)|..]
    ensures AllWhiteSpace(s[..LeadingWhiteSpace(s)])
    ensures AllWhiteSpace(s[LeadingWhiteSpace(s) + |Trim(s)|..])
  {
    var lead := LeadingWhiteSpace(s);
    var u := s[lead..];
    var trail := TrailingWhiteSpace(u);
    assert Trim(s) == s[lead..|s| - trail];
    assert forall i :: |s| - trail <= i < |s| ==> IsWhiteSpace(s[i]) by {
      forall i | |s| - trail <= i < |s|
        ensures IsWhiteSpace(s[i])
      {
        assert s[i] == u[i - lead];
      }
    }
    CutWhiteSpace(s, lead, |s| - trail);
  }

  /** A string whose first `lead` and last `|s| - end` characters are white
      space is those two white-space runs around the slice between them. */
  lemma CutWhiteSpace(s: string, lead: nat, end: nat)
    requires lead <= end <= |s|
    requires forall i :: 0 <= i < lead ==> IsWhiteSpace(s[i])
    requires forall i :: end <= i < |s| ==> IsWhiteSpace(s[i])
    ensures s == s[..lead] + s[lead..end] + s[end..]
    ensures AllWhiteSpace(s[..lead]) && AllWhiteSpace(s[end..])
  {
    assert s == s[..lead] + s[lead..end] + s[end..];
  }

  /** Trimming is exact: padding a trimmed string with white space on both
      sides and trimming gives the string back. With `TrimCutsOnlyWhiteSpace`
      this pins `Trim(s)` down as the unique such core of `s`. */
  lemma {:induction false} TrimOfPadded(pre: string, t: string, post: string)
    requires AllWhiteSpace(pre) && AllWhiteSpace(post)
    requires IsTrimmed(t)
    ensures Trim(pre + t + post) == t
  {
    var s := pre + t + post;
    if t == [] {
      LeadingWhiteSpaceUnique(s, |s|);
      assert s[|s|..] == [];
      TrailingWhiteSpaceUnique([], 0);
    } else {
      LeadingWhiteSpaceUnique(s, |pre|);
      assert s[|pre|..] == t + post;
      TrailingWhiteSpaceUnique(t + post, |post|);
      assert s[|pre|..|s| - |post|] == t;
    }
  }

  /** A text without white space at its ends is left unchanged by `trim`. */
  lemma {:induction false} TrimOfTrimmed(t: string)
    requires IsTrimmed(t)
    ensures Trim(t) == t
  {
    LeadingWhiteSpaceUnique(t, 0);
    assert t[0..] == t;
    TrailingWhiteSpaceUnique(t, 0);
  }

  /** Trimming twice is trimming once. */
  lemma {:induction false} TrimIdempotent(s: string)
    ensures Trim(Trim(s)) == Trim(s)
  {
    TrimOfTrimmed(Trim(s));
  }

  // ----------------------------------------------------------- digits

  /** The ASCII digits: `\d` in a regular expression without the `u` flag. */
  predicate IsDigit(c: char) {
    '0' <= c <= '9'
  }

  predicate AllDigits(s: string) {
    forall i :: 0 <= i < |s| ==> IsDigit(s[i])
  }

  function DigitValue(c: char): (d: nat)
    requires IsDigit(c)
    ensures d < 10
  {
    (c as int) - ('0' as int)
  }

  function DigitChar(d: nat): (c: char)
    requires d < 10
    ensures IsDigit(c) && DigitValue(c) == d
  {
    ('0' as int + d) as char
  }

  /** The decimal value of a digit string, as `Number` reads it; leading
      zeros are allowed and the empty string reads as 0. */
  function DigitsValue(s: string): nat
    requires AllDigits(s)
  {
    if s == [] then 0 else 10 * DigitsValue(s[..|s| - 1]) + DigitValue(s[|s| - 1])
  }

  /** The shortest decimal spelling of `n`; `DigitsValue` reads it back. */
  function DecimalText(n: nat): (r: string)
    ensures r != [] && AllDigits(r)
    ensures DigitsValue(r) == n
  {
    if n < 10 then [DigitChar(n)]
    else
      var r := DecimalText(n / 10) + [DigitChar(n % 10)];
      assert r[..|r| - 1] == DecimalText(n / 10);
      r
  }

  /** The length of the longest all-digit prefix of `s`. */
  function DigitRun(s: string): (n: nat)
    ensures n <= |s|
    ensures forall i :: 0 <= i < n ==> IsDigit(s[i])
    ensures n < |s| ==> !IsDigit(s[n])
  {
    if s != [] && IsDigit(s[0]) then 1 + DigitRun(s[1..]) else 0
  }

  lemma {:induction false} DigitRunUnique(s: string, n: nat)
    requires n <= |s|
    requires forall i :: 0 <= i < n ==> IsDigit(s[i])
    requires n < |s| ==> !IsDigit(s[n])
    ensures DigitRun(s) == n
  {
  }

  // --------------------------------------------------------- parseInt

  /** After the leading white space, an optional sign and then a digit. */
  predicate StartsWithInteger(t: string) {
    (|t| > 0 && IsDigit(t[0]))
    || (|t| > 1 && (t[0] == '+' || t[0] == '-') && IsDigit(t[1]))
  }

  /** `parseInt(s, 10)`: skip leading white space, read an optional sign and
      then the longest run of decimal digits; NaN (here `None`) when there is
      no digit. The rest of the string is ignored, so "15일" reads as 15. */
  function ParseInt(s: string): (r: Option<int>)
    ensures r.None? <==> !StartsWithInteger(TrimStart(s))
  {
    ReadSignedDigits(TrimStart(s))
  }

  /** The sign-and-digits step of `parseInt`, after the white space is gone. */
  function ReadSignedDigits(t: string): (r: Option<int>)
    ensures r.None? <==> !StartsWithInteger(t)
  {
    var negative := t != [] && t[0] == '-';
    var body := if t != [] && (t[0] == '+' || t[0] == '-') then t[1..] else t;
    var n := DigitRun(body);
    if n == 0 then None
    else
      var v: int := DigitsValue(body[..n]);
      Some(if negative then -v else v)
  }

  /** Leading white space does not change what `parseInt` reads. */
  lemma {:induction false} ParseIntSkipsPadding(pad: string, t: string)
    requires AllWhiteSpace(pad)
    requires t == [] || !IsWhiteSpace(t[0])
    ensures ParseInt(pad + t) == ParseInt(t)
  {
    LeadingWhiteSpaceUnique(pad + t, |pad|);
    assert (pad + t)[|pad|..] == t;
    LeadingWhiteSpaceUnique(t, 0);
    assert TrimStart(pad + t) == TrimStart(t);
  }

  /** A run of digits followed by a non-digit reads as the run's value. */
  lemma {:induction false} ReadDigits(d: string, rest: string)
    requires d != [] && AllDigits(d)
    requires rest == [] || !IsDigit(rest[0])
    ensures ReadSignedDigits(d + rest) == Some(DigitsValue(d) as int)
  {
    var t := d + rest;
    assert t[0] == d[0];
    DigitRunUnique(t, |d|);
    assert t[..|d|] == d;
  }

  /** A sign in front of the run: `-` negates it, `+` does nothing. */
  lemma {:induction false} ReadSignedRun(sign: char, d: string, rest: string)
    requires sign == '+' || sign == '-'
    requires d != [] && AllDigits(d)
    requires rest == [] || !IsDigit(rest[0])
    ensures ReadSignedDigits([sign] + d + rest)
         == Some(if sign == '-' then -(DigitsValue(d) as int) else DigitsValue(d) as int)
  {
    var t := [sign] + d + rest;
    var body := d + rest;
    assert t[0] == sign;
    assert t[1..] == body;
    assert body[0] == d[0];
    DigitRunUnique(body, |d|);
    assert body[..|d|] == d;
  }

  /** Without padding or sign, `parseInt` reads a digit run as its value. */
  lemma {:induction false} ParseIntOfDigits(d: string, rest: string)
    requires d != [] && AllDigits(d)
    requires rest == [] || !IsDigit(rest[0])
    ensures ParseInt(d + rest) == Some(DigitsValue(d) as int)
  {
    var t := d + rest;
    assert t[0] == d[0];
    LeadingWhiteSpaceUnique(t, 0);
    assert TrimStart(t) == t;
    ReadDigits(d, rest);
  }

  /** `parseInt` reads back any spelling of a number in digits, leading
      zeros included, followed by anything that does not start with a digit,
      whatever white space and sign precede it. */
  lemma {:induction false} ParseIntOfSignedDigits(pad: string, sign: string, d: string, rest: string)
    requires AllWhiteSpace(pad)
    requires sign == "" || sign == "+" || sign == "-"
    requires d != [] && AllDigits(d)
    requires rest == [] || !IsDigit(rest[0])
    ensures ParseInt(pad + sign + d + rest)
         == Some(if sign == "-" then -(DigitsValue(d) as int) else DigitsValue(d) as int)
  {
    if sign == "" {
      var t := d + rest;
      assert pad + sign + d + rest == pad + t;
      assert t[0] == d[0];
      ParseIntAfterPadding(pad, t);
      ReadDigits(d, rest);
    } else {
      var t := [sign[0]] + d + rest;
      assert pad + sign + d + rest == pad + t;
      assert t[0] == sign[0];
      ParseIntAfterPadding(pad, t);
      ReadSignedRun(sign[0], d, rest);
    }
  }

  /** Once the padding is skipped, `parseInt` reads the sign and digits. */
  lemma {:induction false} ParseIntAfterPadding(pad: string, t: string)
    requires AllWhiteSpace(pad)
    requires t != [] && !IsWhiteSpace(t[0])
    ensures ParseInt(pad + t) == ReadSignedDigits(t)
  {
    ParseIntSkipsPadding(pad, t);
    LeadingWhiteSpaceUnique(t, 0);
    assert TrimStart(t) == t;
  }
}

=== FILE: optional.dfy ===
/**
 The absent value shared by every module: JavaScript's `null`, `undefined`
 and `NaN` where the handler produces or tests them.
 */
module Optional {

  datatype Option<+T> = None | Some(value: T)
}

=== FILE: reservations.dfy ===
/**
 The `GET /api/reservations?type=...` handler (index.js:26-93) with its
 collaborators made explicit: today's weekday and day of the month (Seoul
 time) are inputs, and the page fetch is a function from URL to either the
 page's calendar cells or a failure.

 The handler validates `type`, answers closed days without fetching, and
 otherwise fetches the type's calendar and returns the records of today's
 cells.
 */
module Reservations {
  import opened Optional
  import opened SlotLabel
  import opened Calendar

  /** `Date.prototype.getDay()`: 0 is Sunday, 1 Monday, ... 6 Saturday. */
  type Weekday = d: int | 0 <= d <= 6

  /** `Date.prototype.getDate()`: the day of the month. */
  type DayOfMonth = d: int | 1 <= d <= 31 witness 1

  const Sunday: Weekday := 0
  const Monday: Weekday := 1

  const CalendarPage: string := "https://www.cnse.or.kr/main/reserve/experience_calendar.action?q="

  /** `reservationMap`: the calendar page of each reservation type. */
  const ReservationMap: map<string, string> := map[
    "ai" := CalendarPage + "1f960d474357a0fac696373aa47231c9819814b7d50f96cb7e020bd713813353",
    "earthquake" := CalendarPage + "836d40ad6724f3585ecc91c192de8f29d7b34b85db4c936465070bb8a1d25af5",
    "drone" := CalendarPage + "33152e18b25f10571da6b0aa11ccf9f07e6211fe37567968e6c591f23fa5c429"
  ]

  /** The reservation types the service offers. */
  predicate IsReservationType(t: Option<string>) {
    t == Some("ai") || t == Some("earthquake") || t == Some("drone")
  }

  const MondayMessage: string := "월요일 휴관"
  const SundayEarthquakeMessage: string := "일요일 지진 VR 불가"
  const SuccessMessage: string := "정상 조회"
  const InvalidTypeError: string := "invalid type"
  const CrawlFailError: string := "crawl fail"

  /** The outcome of the checks before the fetch (index.js:27-41): reject
      the type, answer a closed day, or crawl `target`. */
  datatype Decision<+T> = InvalidType | ClosedDay(message: string) | Crawl(target: T)

  /** The weekday rule of index.js:39-41, for a type that was found. */
  function DayRule<T>(t: Option<string>, weekday: Weekday, target: T): Decision<T> {
    if weekday == Monday then ClosedDay(MondayMessage)
    else if weekday == Sunday && t == Some("earthquake") then ClosedDay(SundayEarthquakeMessage)
    else Crawl(target)
  }

  /** The checks before the fetch, with `type` looked up among the map's own
      entries only. An unknown or missing type is rejected whatever the day;
      Monday closes every type; Sunday closes only `earthquake`; everything
      else crawls the type's own calendar page. */
  function Decide(t: Option<string>, weekday: Weekday): (d: Decision<string>)
    ensures d.InvalidType? <==> !IsReservationType(t)
    ensures d == ClosedDay(MondayMessage) <==> IsReservationType(t) && weekday == Monday
    ensures d == ClosedDay(SundayEarthquakeMessage) <==> t == Some("earthquake") && weekday == Sunday
    ensures d.Crawl? <==> IsReservationType(t) && weekday != Monday && !(weekday == Sunday && t == Some("earthquake"))
    ensures d.Crawl? ==> d.target == ReservationMap[t.value]
  {
    if t.Some? && t.value in ReservationMap then DayRule(t, weekday, ReservationMap[t.value])
    else InvalidType
  }

  /** The whole request: the response status and JSON body. */
  datatype Body =
    | ErrorBody(error: string, detail: Option<string>)
    | DataBody(message: string, data: seq<Slot>)

  datatype Response = Response(status: int, body: Body)

  /** What the fetch-and-load step gives the handler: the page's calendar
      cells, or the message of the error it threw. */
  datatype FetchResult = Page(cells: seq<Cell>) | FetchFailed(detail: string)

  /** `GET /api/reservations`. 400 for a bad type, an empty 200 answer on a
      closed day, a 500 when the fetch fails, and otherwise a 200 answer
      whose data are the records of today's cells of the type's page. */
  function Handle(t: Option<string>, weekday: Weekday, todayDate: DayOfMonth, fetch: string -> FetchResult): (r: Response)
    ensures r.status == 400 <==> !IsReservationType(t)
    ensures r.status == 400 ==> r.body == ErrorBody(InvalidTypeError, None)
    ensures IsReservationType(t) && weekday == Monday ==> r == Response(200, DataBody(MondayMessage, []))
    ensures t == Some("earthquake") && weekday == Sunday ==> r == Response(200, DataBody(SundayEarthquakeMessage, []))
    ensures IsReservationType(t) && weekday != Monday && !(weekday == Sunday && t == Some("earthquake")) ==>
              match fetch(ReservationMap[t.value])
              case Page(cells) => r == Response(200, DataBody(SuccessMessage, TodaySlots(cells, todayDate)))
              case FetchFailed(detail) => r == Response(500, ErrorBody(CrawlFailError, Some(detail)))
  {
    match Decide(t, weekday)
    case InvalidType => Response(400, ErrorBody(InvalidTypeError, None))
    case ClosedDay(message) => Response(200, DataBody(message, []))
    case Crawl(url) =>
      match fetch(url)
      case Page(cells) => Response(200, DataBody(SuccessMessage, TodaySlots(cells, todayDate)))
      case FetchFailed(detail) => Response(500, ErrorBody(CrawlFailError, Some(detail)))
  }

  /** A rejected type and a closed day are answered before any fetch: the
      response is the same whatever the fetch would have returned. */
  lemma NoFetchUnlessCrawling(t: Option<string>, weekday: Weekday, todayDate: DayOfMonth,
                              fetch1: string -> FetchResult, fetch2: string -> FetchResult)
    requires !IsReservationType(t) || weekday == Monday || (weekday == Sunday && t == Some("earthquake"))
    ensures Handle(t, weekday, todayDate, fetch1) == Handle(t, weekday, todayDate, fetch2)
  {
  }

  /** A crawl looks only at its own type's page. */
  lemma FetchesOnlyTheTypesPage(t: Option<string>, weekday: Weekday, todayDate: DayOfMonth,
                                fetch1: string -> FetchResult, fetch2: string -> FetchResult)
    requires IsReservationType(t)
    requires fetch1(ReservationMap[t.value]) == fetch2(ReservationMap[t.value])
    ensures Handle(t, weekday, todayDate, fetch1) == Handle(t, weekday, todayDate, fetch2)
  {
  }

  // ------------------------------------------------- lookup as written

  /** The properties every plain object inherits from `Object.prototype` in
      Node.js; `reservationMap[type]` finds each of them, and each is a
      function or an object, so `!url` is false for them. */
  const InheritedNames: set<string> := {
    "constructor", "hasOwnProperty", "isPrototypeOf", "propertyIsEnumerable",
    "toString", "toLocaleString", "valueOf", "__proto__",
    "__defineGetter__", "__defineSetter__", "__lookupGetter__", "__lookupSetter__"
  }

  /** What `reservationMap[type]` yields when it is truthy: an own entry's
      URL, or an inherited built-in. */
  datatype Found = Url(url: string) | Builtin(name: string)

  /** `reservationMap[type]` as index.js:28 writes it. A missing type reads
      the key "undefined", which is neither an own nor an inherited name. */
  function LookupAsWritten(t: Option<string>): (r: Option<Found>)
    ensures r.Some? <==> t.Some? && (t.value in ReservationMap || t.value in InheritedNames)
    ensures r.Some? && r.value.Url? ==> IsReservationType(t) && r.value.url == ReservationMap[t.value]
    ensures r.Some? && r.value.Builtin? ==> t == Some(r.value.name) && r.value.name in InheritedNames && !IsReservationType(t)
  {
    match t
    case None => None
    case Some(key) =>
      if key in ReservationMap then Some(Url(ReservationMap[key]))
      else if key in InheritedNames then Some(Builtin(key))
      else None
  }

  /** The checks of index.js:27-41 as written. */
  function DecideAsWritten(t: Option<string>, weekday: Weekday): (d: Decision<Found>)
    ensures d.InvalidType? <==> !(t.Some? && (t.value in ReservationMap || t.value in InheritedNames))
    ensures d.Crawl? && d.target.Url? ==> IsReservationType(t) && d.target.url == ReservationMap[t.value]
    ensures d.Crawl? && d.target.Builtin? ==> !IsReservationType(t) && t == Some(d.target.name)
    ensures d.ClosedDay? ==> weekday == Monday || (weekday == Sunday && t == Some("earthquake"))
    ensures !d.InvalidType? ==> (d.ClosedDay? <==> weekday == Monday || (weekday == Sunday && t == Some("earthquake")))
    ensures d == ClosedDay(MondayMessage) <==> !d.InvalidType? && weekday == Monday
  {
    match LookupAsWritten(t)
    case None => InvalidType
    case Some(found) => DayRule(t, weekday, found)
  }

  /** `type=toString` is not a reservation type, yet it passes the `!url`
      check: on a Monday it gets the closed-day answer, and on a Wednesday
      the handler goes on to fetch a function instead of a URL. */
  lemma InheritedNameEscapesValidation()
    ensures DecideAsWritten(Some("toString"), Monday) == ClosedDay(MondayMessage)
    ensures DecideAsWritten(Some("toString"), 3) == Crawl(Builtin("toString"))
    ensures Decide(Some("toString"), Monday) == InvalidType
  {
    assert "toString" !in ReservationMap;
    assert "toString" in InheritedNames;
  }

  /** Exactly the inherited names escape: for every other type the code as
      written decides as `Decide` does. */
  lemma AsWrittenAgreesOffInheritedNames(t: Option<string>, weekday: Weekday)
    requires t.None? || t.value !in InheritedNames
    ensures DecideAsWritten(t, weekday).InvalidType? <==> Decide(t, weekday).InvalidType?
    ensures DecideAsWritten(t, weekday).ClosedDay? <==> Decide(t, weekday).ClosedDay?
    ensures DecideAsWritten(t, weekday).ClosedDay? ==> DecideAsWritten(t, weekday).message == Decide(t, weekday).message
    ensures Decide(t, weekday).Crawl? ==> DecideAsWritten(t, weekday) == Crawl(Url(Decide(t, weekday).target))
  {
  }
}

=== FILE: slot_label.dfy ===
/**
 The parser for one session link of the booking calendar (index.js:68-84).
 A link's text, such as "10:10 ~ 10:40/초등 (신청마감)", is trimmed and
 turned into a record of its start time, a status and a seat count:

 - the time is the `H:MM` or `HH:MM` text at the very start (regular
   expression `^\d{1,2}:\d{2}`), or "" when there is none;
 - the status text is what the regular expression `\((.*?)\)$` captures:
   everything from the FIRST `(` from which the rest of the string runs,
   without a line break, up to a `)` that ends the string;
 - that text is the closed marker "신청마감", a `used/total` fraction of
   decimal numbers, or anything else.
 */
module SlotLabel {
  import opened Optional
  import opened JsText

  /** The site's "applications closed" marker, also the status reported for it. */
  const ClosedMarker: string := "신청마감"

  /** The status reported for a slot whose label carries a seat fraction. */
  const BookableText: string := "예약가능"

  /** The three values the `status` field can take. */
  datatype Status = Blank | ApplicationsClosed | Bookable {
    function Text(): string {
      match this
      case Blank => ""
      case ApplicationsClosed => ClosedMarker
      case Bookable => BookableText
    }
  }

  /** The three status literals are distinct, so the JSON text identifies
      the status. */
  lemma {:induction false} StatusTextsDiffer(s: Status)
    ensures s.Text() == ClosedMarker <==> s == ApplicationsClosed
    ensures s.Text() == BookableText <==> s == Bookable
    ensures s.Text() == "" <==> s == Blank
  {
  }

  /** One entry of the response's `data` array: `{time, status, available}`;
      `available` is `null` (here `None`) unless the label classified. */
  datatype Slot = Slot(time: string, status: Status, available: Option<int>)

  // ---------------------------------------------------------------- time

  /** The texts `\d{1,2}:\d{2}` matches: one or two hour digits, a colon and
      two minute digits. */
  predicate IsClockText(t: string) {
    || (|t| == 4 && IsDigit(t[0]) && t[1] == ':' && IsDigit(t[2]) && IsDigit(t[3]))
    || (|t| == 5 && IsDigit(t[0]) && IsDigit(t[1]) && t[2] == ':' && IsDigit(t[3]) && IsDigit(t[4]))
  }

  /** `(raw.match(/^\d{1,2}:\d{2}/) || [])[0] || ''`. The greedy two-digit
      hour is tried first, then the one-digit hour; the two shapes cannot both
      fit the same string, so the result is THE clock prefix of `raw`, if any. */
  function TimePrefix(raw: string): (time: string)
    ensures time == [] || (IsClockText(time) && time <= raw)
    ensures forall n :: 4 <= n <= 5 && n <= |raw| && IsClockText(raw[..n]) ==> time == raw[..n]
    ensures time == [] <==> forall n :: 4 <= n <= 5 && n <= |raw| ==> !IsClockText(raw[..n])
  {
    if |raw| >= 5 && IsDigit(raw[0]) && IsDigit(raw[1]) && raw[2] == ':' && IsDigit(raw[3]) && IsDigit(raw[4]) then
      raw[..5]
    else if |raw| >= 4 && IsDigit(raw[0]) && raw[1] == ':' && IsDigit(raw[2]) && IsDigit(raw[3]) then
      raw[..4]
    else
      ""
  }

  // ------------------------------------------------------- status capture

  predicate NoLineTerminator(s: string) {
    forall i :: 0 <= i < |s| ==> !IsLineTerminator(s[i])
  }

  /** `\((.*?)\)$` can match with its `(` at index `i`: the string ends in
      `)` after it, and `.` (any character but a line terminator) covers what
      lies between. `$` without the `m` flag is the end of the string, so the
      lazy `.*?` has to reach the last character. */
  predicate ParenMatchAt(raw: string, i: int) {
    && 0 <= i < |raw| - 1
    && raw[i] == '('
    && raw[|raw| - 1] == ')'
    && NoLineTerminator(raw[i + 1..|raw| - 1])
  }

  /** The regular-expression engine's scan: the leftmost start index, at or
      after `from`, where the pattern matches. */
  function LeftmostMatch(raw: string, from: nat): (i: Option<nat>)
    requires from <= |raw|
    ensures i.Some? ==> from <= i.value && ParenMatchAt(raw, i.value)
    ensures i.Some? ==> forall j :: from <= j < i.value ==> !ParenMatchAt(raw, j)
    ensures i.None? ==> forall j :: from <= j ==> !ParenMatchAt(raw, j)
    decreases |raw| - from
  {
    if from == |raw| then None
    else if ParenMatchAt(raw, from) then Some(from)
    else LeftmostMatch(raw, from + 1)
  }

  /** `(raw.match(/\((.*?)\)$/) || [])[1] || ''`: the text between the
      leftmost matching `(` and the final `)`, or "" when nothing matches. */
  function StatusText(raw: string): (c: string)
    ensures forall i :: ParenMatchAt(raw, i) && (forall j :: 0 <= j < i ==> !ParenMatchAt(raw, j))
              ==> c == raw[i + 1..|raw| - 1]
    ensures (forall i :: !ParenMatchAt(raw, i)) ==> c == ""
  {
    match LeftmostMatch(raw, 0)
    case Some(i) => raw[i + 1..|raw| - 1]
    case None => ""
  }

  /** A label whose only `(` opens its final parenthesised group yields that
      group's content as status text. */
  lemma {:induction false} StatusTextOfFinalGroup(prefix: string, inner: string)
    requires '(' !in prefix
    requires NoLineTerminator(inner)
    ensures StatusText(prefix + "(" + inner + ")") == inner
  {
    var raw := prefix + "(" + inner + ")";
    var i := |prefix|;
    assert raw[i + 1..|raw| - 1] == inner;
    assert ParenMatchAt(raw, i);
    forall j | 0 <= j < i
      ensures !ParenMatchAt(raw, j)
    {
      assert raw[j] == prefix[j];
    }
  }

  /** The capture starts at the FIRST `(`: with two groups at the end, the
      status text spans both, so "a (b) (c)" yields "b) (c". */
  lemma {:induction false} StatusTextSpansFromFirstParen()
    ensures StatusText("a (b) (c)") == "b) (c"
  {
    StatusTextOfFinalGroup("a ", "b) (c");
    assert "a " + "(" + "b) (c" + ")" == "a (b) (c)";
  }

  /** A line break after the first `(` pushes the match to a later `(`. */
  lemma {:induction false} StatusTextSkipsBrokenGroup()
    ensures StatusText("(x\n) (3/6)") == "3/6"
  {
    var raw := "(x\n) (3/6)";
    assert !ParenMatchAt(raw, 0) by {
      assert raw[2] == '\n';
      assert IsLineTerminator(raw[1..|raw| - 1][1]);
    }
    assert raw[6..|raw| - 1] == "3/6";
    assert ParenMatchAt(raw, 5);
    forall j | 0 <= j < 5
      ensures !ParenMatchAt(raw, j)
    {
      if j != 0 { assert raw[j] != '('; }
    }
  }

  // ------------------------------------------------------ classification

  /** `statusRaw` is `used/total` split at index `k`: what `^\d+\/\d+$`
      accepts, both sides non-empty runs of ASCII digits. */
  predicate FractionAt(s: string, k: int) {
    && 0 < k < |s| - 1
    && s[k] == '/'
    && AllDigits(s[..k])
    && AllDigits(s[k + 1..])
  }

  predicate IsFraction(s: string) {
    exists k :: 0 <= k < |s| && FractionAt(s, k)
  }

  /** The index of the first `/` in `s`, if there is one. */
  function FirstSlash(s: string, from: nat): (k: Option<nat>)
    requires from <= |s|
    ensures k.Some? ==> from <= k.value < |s| && s[k.value] == '/'
    ensures k.Some? ==> forall j :: from <= j < k.value ==> s[j] != '/'
    ensures k.None? ==> forall j :: from <= j < |s| ==> s[j] != '/'
    decreases |s| - from
  {
    if from == |s| then None
    else if s[from] == '/' then Some(from)
    else FirstSlash(s, from + 1)
  }

  /** A fraction splits at the first `/`: the digits before it leave no room
      for an earlier one, and a later one would have it among its digits. */
  lemma {:induction false} NoFractionPastFirstSlash(s: string, k: nat)
    requires k < |s| && s[k] == '/'
    requires forall j :: 0 <= j < k ==> s[j] != '/'
    requires !FractionAt(s, k)
    ensures !IsFraction(s)
  {
    forall j | 0 <= j < |s| && FractionAt(s, j)
      ensures false
    { }
  }

  /** `statusRaw.split('/').map(Number)` on a text that passed the fraction
      test: the numbers before and after the single `/`. */
  function SplitFraction(s: string): (r: Option<(nat, nat)>)
    ensures r.Some? <==> IsFraction(s)
    ensures forall k :: FractionAt(s, k) ==> r == Some((DigitsValue(s[..k]), DigitsValue(s[k + 1..])))
  {
    match FirstSlash(s, 0)
    case None => None
    case Some(k) =>
      if FractionAt(s, k) then Some((DigitsValue(s[..k]), DigitsValue(s[k + 1..])))
      else
        NoFractionPastFirstSlash(s, k);
        None
  }

  /** The `if`/`else if` of index.js:75-82 on the captured status text. */
  function Classify(statusRaw: string): (r: (Status, Option<int>))
    ensures r.0 == ApplicationsClosed <==> statusRaw == ClosedMarker
    ensures r.0 == Bookable <==> IsFraction(statusRaw)
    ensures r.0 == Blank <==> r.1 == None
    ensures r.0 == ApplicationsClosed ==> r.1 == Some(0)
    ensures forall k :: FractionAt(statusRaw, k) ==>
              r.1 == Some(DigitsValue(statusRaw[k + 1..]) - DigitsValue(statusRaw[..k]))
  {
    if statusRaw == ClosedMarker then
      assert forall k :: !FractionAt(statusRaw, k) by {
        forall k | 0 < k < |statusRaw| - 1
          ensures statusRaw[k] != '/'
        {}
      }
      (ApplicationsClosed, Some(0))
    else
      match SplitFraction(statusRaw)
      case Some((used, total)) => (Bookable, Some(total - used))
      case None => (Blank, None)
  }

  /** `time` is what index.js:73 keeps of `raw`: the clock text `raw` starts
      with, or nothing when it starts with none. */
  ghost predicate IsTimeOf(raw: string, time: string)
  {
    && (time == [] || (IsClockText(time) && time <= raw))
    && (forall n :: 4 <= n <= 5 && n <= |raw| && IsClockText(raw[..n]) ==> time == raw[..n])
  }

  /** `status` and `available` are what index.js:76-82 make of the captured
      text: the closed marker with no seats left, a fraction with its free
      seats `total - used`, and nothing for any other text. */
  ghost predicate IsStatusOf(captured: string, status: Status, available: Option<int>)
  {
    && (status.Text() == ClosedMarker <==> captured == ClosedMarker)
    && (status.Text() == BookableText <==> IsFraction(captured))
    && (status.Text() == "" <==> available == None)
    && (status == ApplicationsClosed ==> available == Some(0))
    && (forall k :: FractionAt(captured, k) ==>
          available == Some(DigitsValue(captured[k + 1..]) - DigitsValue(captured[..k])))
  }

  /** The time the parser keeps is the label's clock prefix. */
  lemma {:induction false} TimePrefixIsTimeOf(raw: string)
    ensures IsTimeOf(raw, TimePrefix(raw))
  {
  }

  /** What `Classify` makes of a captured text is its status and seats. */
  lemma {:induction false} ClassifyIsStatusOf(captured: string)
    ensures IsStatusOf(captured, Classify(captured).0, Classify(captured).1)
  {
    StatusTextsDiffer(Classify(captured).0);
  }

  /** The record index.js:84 pushes for one already-trimmed label. */
  function ParseLabel(raw: string): (slot: Slot)
    ensures IsTimeOf(raw, slot.time)
    ensures IsStatusOf(StatusText(raw), slot.status, slot.available)
  {
    TimePrefixIsTimeOf(raw);
    ClassifyIsStatusOf(StatusText(raw));
    var c := Classify(StatusText(raw));
    Slot(TimePrefix(raw), c.0, c.1)
  }

  /** The record for one link, `$(el).text().trim()` then the parser. */
  function ParseLink(text: string): (slot: Slot)
    ensures slot.time == [] || (IsClockText(slot.time) && slot.time <= Trim(text))
    ensures slot.status.Text() == "" <==> slot.available == None
    ensures slot.status == ApplicationsClosed ==> slot.available == Some(0)
  {
    ParseLabel(Trim(text))
  }

  // ------------------------------------------------------------ lemmas

  /** The text `used/total` the site prints for a slot. */
  function FractionText(used: nat, total: nat): string {
    DecimalText(used) + "/" + DecimalText(total)
  }

  /** Any `used/total` status text classifies as bookable with `total - used`
      seats left, without a clamp: a full slot ("6/6") reports 0 and an
      overbooked one ("7/6") reports -1, still with the bookable status. */
  lemma {:induction false} ClassifyFraction(used: nat, total: nat)
    ensures Classify(FractionText(used, total)) == (Bookable, Some(total - used))
  {
    var u, t := DecimalText(used), DecimalText(total);
    assert DigitsValue(u) == used && DigitsValue(t) == total;
    ClassifyDigitFraction(u, t);
  }

  lemma {:induction false} ClassifyDigitFraction(u: string, t: string)
    requires u != [] && AllDigits(u)
    requires t != [] && AllDigits(t)
    ensures Classify(u + "/" + t) == (Bookable, Some(DigitsValue(t) - DigitsValue(u)))
  {
    var s := u + "/" + t;
    var k := |u|;
    assert s[..k] == u;
    assert s[k + 1..] == t;
    assert FractionAt(s, k);
  }

  lemma {:induction false} OverbookedSlotIsStillBookable()
    ensures Classify("6/6") == (Bookable, Some(0))
    ensures Classify("7/6") == (Bookable, Some(-1))
  {
    assert FractionAt("6/6", 1) && FractionAt("7/6", 1);
  }

  /** The label's time is its own clock prefix, whatever follows it. */
  lemma {:induction false} TimeOfClockLabel(clock: string, rest: string)
    requires IsClockText(clock)
    ensures TimePrefix(clock + rest) == clock
  {
    assert (clock + rest)[..|clock|] == clock;
  }

  /** The time is read from the text before the status group alone: a `(`
      cannot be part of a clock, so what follows it never changes the time. */
  lemma {:induction false} TimeIgnoresStatusGroup(prefix: string, rest: string)
    requires rest != [] && rest[0] == '('
    ensures TimePrefix(prefix + rest) == TimePrefix(prefix)
  {
    var raw := prefix + rest;
    assert raw[|prefix|] == '(';
    forall n | 4 <= n <= 5 && n <= |raw| && IsClockText(raw[..n])
      ensures n <= |prefix| && raw[..n] == prefix[..n]
    {
    }
    forall n | 4 <= n <= 5 && n <= |prefix|
      ensures raw[..n] == prefix[..n]
    {
    }
  }

  /** The fields of a parsed label, given its time and its status text. */
  lemma {:induction false} ParseLabelParts(raw: string, time: string, statusRaw: string)
    requires TimePrefix(raw) == time
    requires StatusText(raw) == statusRaw
    ensures ParseLabel(raw) == Slot(time, Classify(statusRaw).0, Classify(statusRaw).1)
  {
  }

  /** The shape the site prints, "<time and text> (<status>)": the record's
      time comes from the text before the group and its status and seat count
      from the group's content. Labels without a clock still give a record. */
  lemma {:induction false} ParseGroupedLabel(prefix: string, inner: string)
    requires '(' !in prefix
    requires NoLineTerminator(inner)
    ensures ParseLabel(prefix + "(" + inner + ")")
         == Slot(TimePrefix(prefix), Classify(inner).0, Classify(inner).1)
  {
    var raw := prefix + "(" + inner + ")";
    var group := "(" + inner + ")";
    assert raw == prefix + group;
    assert StatusText(raw) == inner by { StatusTextOfFinalGroup(prefix, inner); }
    assert TimePrefix(raw) == TimePrefix(prefix) by { TimeIgnoresStatusGroup(prefix, group); }
    ParseLabelParts(raw, TimePrefix(prefix), inner);
  }

  /** A final group holding the closed marker gives the closed status and 0. */
  lemma {:induction false} ParseClosedLabel(prefix: string)
    requires '(' !in prefix
    ensures ParseLabel(prefix + "(" + ClosedMarker + ")") == Slot(TimePrefix(prefix), ApplicationsClosed, Some(0))
  {
    ParseGroupedLabel(prefix, ClosedMarker);
  }

  lemma {:induction false} FractionTextHasNoLineTerminator(used: nat, total: nat)
    ensures NoLineTerminator(FractionText(used, total))
  {
    var f := FractionText(used, total);
    var u := DecimalText(used);
    forall i | 0 <= i < |f|
      ensures !IsLineTerminator(f[i])
    {
      if i < |u| { assert f[i] == u[i]; }
      else if i > |u| { assert f[i] == DecimalText(total)[i - |u| - 1]; }
    }
  }

  /** A final group holding a seat fraction gives the bookable status and
      the remaining seats, unclamped. */
  lemma {:induction false} ParseFractionLabel(prefix: string, used: nat, total: nat)
    requires '(' !in prefix
    ensures ParseLabel(prefix + "(" + FractionText(used, total) + ")")
         == Slot(TimePrefix(prefix), Bookable, Some(total - used))
  {
    FractionTextHasNoLineTerminator(used, total);
    ParseGroupedLabel(prefix, FractionText(used, total));
    ClassifyFraction(used, total);
  }

  /** Round trip for a label the site prints, clock first: the record gives
      back the clock and the remaining seats. */
  lemma {:induction false} SiteLabelRoundTrip(clock: string, middle: string, used: nat, total: nat)
    requires IsClockText(clock)
    requires '(' !in middle
    ensures ParseLabel(clock + middle + "(" + FractionText(used, total) + ")")
         == Slot(clock, Bookable, Some(total - used))
  {
    assert '(' !in clock + middle by {
      forall i | 0 <= i < |clock + middle|
        ensures (clock + middle)[i] != '('
      {
        if i >= |clock| { assert (clock + middle)[i] == middle[i - |clock|]; }
      }
    }
    ParseFractionLabel(clock + middle, used, total);
    TimeOfClockLabel(clock, middle);
  }

  /** A label without a clock is kept, with time "". */
  lemma {:induction false} UntimedLabelIsKept()
    ensures ParseLabel("초등 (3/6)") == Slot("", Bookable, Some(3))
  {
    var t := TimePrefix("초등 ");
    var c := Classify("3/6");
    assert t == "";
    assert c == (Bookable, Some(3)) by {
      assert FractionAt("3/6", 1);
    }
    assert ParseLabel("초등 (3/6)") == Slot(t, c.0, c.1) by {
      assert "초등 " + "(" + "3/6" + ")" == "초등 (3/6)";
      ParseGroupedLabel("초등 ", "3/6");
    }
  }

  /** A label that does not end in a parenthesised group gets the blank
      status and no seat count. */
  lemma {:induction false} LabelWithoutFinalGroup(raw: string)
    requires raw == [] || raw[|raw| - 1] != ')'
    ensures ParseLabel(raw).status == Blank && ParseLabel(raw).available == None
  {
    assert forall i :: !ParenMatchAt(raw, i);
    assert !IsFraction("") by {
      forall k | FractionAt("", k) ensures false {}
    }
  }

  /** The parser sees only the trimmed text: white space around a label is
      ignored, and re-parsing the trimmed text gives the same record. */
  lemma {:induction false} ParseLinkIgnoresPadding(pre: string, core: string, post: string)
    requires AllWhiteSpace(pre) && AllWhiteSpace(post)
    requires IsTrimmed(core)
    ensures ParseLink(pre + core + post) == ParseLabel(core)
    ensures ParseLink(Trim(pre + core + post)) == ParseLink(pre + core + post)
  {
    var s := pre + core + post;
    TrimOfPadded(pre, core, post);
    assert Trim(s) == core;
    TrimIdempotent(s);
    assert Trim(Trim(s)) == core;
  }
}
